=== FILE: README.md ===
# cc link store — a Dafny model

`cc` is a small URL shortener. A client POSTs a URL to `/put` and gets back
a short code; `GET /{code}` answers with a permanent redirect to the URL.
The links live in a redb database file with two tables, `c2u` (code to
URL) and `u2c` (URL to code). This project models the core of the
service and proves its properties:

- the validation and normalisation of a submitted URL: UTF-8 decoding,
  trimming, URI parsing, the `http`/`https` allow-list;
- the code format: four random bytes in unpadded base64url (section 5 of
  RFC 4648, padding left out as section 3.2 of RFC 4648 allows);
- the admission protocol: one write transaction that reuses the code
  already stored for a URL, or draws candidate codes until one is free,
  then records the link in both tables;
- the read-only resolve of a code, and the schema initialisation at startup;
- the HTTP status and body of each handler's reply.

Modules, leaves first:

| file | module | contents |
|---|---|---|
| common.dfy | `Common` | `Option`, `Result`, `Byte` |
| text.dfy | `Text` | Unicode whitespace and `str::trim`; decimal rendering |
| utf8.dfy | `Utf8` | `std::str::from_utf8` with its `Utf8Error` report; UTF-8 encoder |
| base64url.dfy | `Base64Url` | unpadded base64url encoder, strict decoder, `gen_key` |
| validation.dfy | `Validation` | scheme allow-list, the normalisation pipeline, rejection messages |
| linkstore.dfy | `LinkStore` | the database, schema init, resolve, the retry loop, admission |
| service.dfy | `Service` | the `get_code` and `put_new` handlers as reply-producing functions |

How the model stands in for what it cannot see:

- **Database.** A `Db` maps table names to tables (`map<string, string>`).
  Each transaction is one function from the old `Db` to a result and the new
  `Db`. A transaction that returns early, or that hits an error, is dropped
  without `commit`, and so its result carries the old `Db` unchanged.
- **Database errors.** Every redb call that can fail is an `Op`. A `Fault`
  names the one operation that fails, if any. The `?` and `nope!` exits are
  the branches taken when it does.
- **Randomness.** `put_new` receives the sequence of 4-byte draws that
  `rand::rng().fill` would produce. Each draw becomes a candidate code
  through `GenKey`.
- **URI parser.** `http::Uri` parsing and its `to_string` are a function
  parameter (`Validation.UriParser`). From it the model uses only
  success or failure, the error text, the scheme and the re-serialised text.

Details of the source the model follows:

- A URL that is already stored is answered with status 200. The reuse
  path returns `Json(..).into_response()` without a status, so only a new
  link is answered with 201.
- Schema initialisation tests only whether `c2u` exists. If it does, nothing
  is created, even when `u2c` is missing. The first committed put then
  creates `u2c`, because a write transaction's `open_table` creates a
  missing table.
- Resolving a code when `c2u` does not exist is a database error (500),
  because a read transaction cannot open a missing table.

## Model

| member | source | states |
|---|---|---|
| Base64Url.GenKey | cc.rs:255-259 | a code is six URL-safe characters |
| Base64Url.GenKeyDecodes | cc.rs:255-259 | a code decodes back to the four drawn bytes, so no information of the draw is lost |
| Base64Url.Encode | cc.rs:258 | the unpadded encoding of n bytes has (4n+2)/3 characters: whole quanta of four, plus two or three for a remainder of one or two bytes |
| Base64Url.EncodeUrlSafe | cc.rs:258 | every character of an encoding is a letter, a digit, `-` or `_` |
| Base64Url.DecodeEncode | cc.rs:258 | decoding an encoding gives back the bytes |
| Base64Url.EncodeDecode | cc.rs:258 | the strict decoder accepts only encoder output: whatever decodes re-encodes to the same string |
| Base64Url.EncodeInjective | cc.rs:255-259 | distinct draws give distinct codes |
| Text.Trim | cc.rs:172 | the result has no whitespace at either end and is a slice of the input with only whitespace outside it |
| Text.TrimSurrounded | cc.rs:172 | whitespace around a core with non-blank ends is exactly what trimming removes |
| Text.TrimIdempotent | cc.rs:172 | trimming twice equals trimming once |
| Text.Decimal | cc.rs:174 | an index is rendered as a non-empty run of decimal digits without leading zero |
| Text.DecimalRoundTrip | cc.rs:174 | reading back the rendered number gives the number |
| Utf8.StepAt | cc.rs:171 | one validator step consumes between one and four bytes of the input; an error length is between 1 and 3 and stays inside the input; an incomplete report means the input ended before the width the lead byte announces |
| Utf8.StepSound | cc.rs:171 | a scalar the validator accepts is encoded by exactly the bytes it consumed |
| Utf8.StepOnEncoded | cc.rs:171 | at the start of a scalar's encoding the validator reads back that scalar and its width |
| Utf8.FromUtf8 | cc.rs:171-176 | a reported error position lies inside the body |
| Utf8.ErrorStep | cc.rs:171-174 | the validator, resumed at the reported position, fails there with the reported error length |
| Utf8.ErrorAtBadStep | cc.rs:171-174 | the validator fails exactly at the reported position with the reported error length; an invalid sequence lies inside the input, an incomplete one runs to its end (with ValidUpToIsValid: the position is the end of the longest valid prefix) |
| Utf8.StepIncomplete | cc.rs:171-174 | a step is reported incomplete exactly when the bytes are a proper prefix of some scalar's encoding, that is when the input ended inside a sequence |
| Utf8.DecodeSound | cc.rs:171 | an accepted body is the UTF-8 encoding of the decoded string |
| Utf8.DecodeEncode | cc.rs:171 | the encoding of every string is accepted and decodes to that string |
| Utf8.ValidIffEncoding | cc.rs:171 | a body decodes to a string exactly when it is that string's encoding |
| Utf8.Describe | cc.rs:174 | the `Utf8Error` text is an "incomplete" report exactly when the input ends inside a sequence, and it ends with the reported index after a space |
| Utf8.DescribeIndexReadsBack | cc.rs:174 | the index at the end of the error text reads back as the reported position |
| Utf8.DescribeLengthReadsBack | cc.rs:174 | in the text for an invalid sequence, the number after the lead reads back as the sequence's length |
| Utf8.ValidUpToIsValid | cc.rs:174 | the bytes before the reported error position are valid UTF-8 |
| Validation.Message | cc.rs:172-195 | every rejection carries a non-empty message |
| Validation.MessageLeads | cc.rs:172-195 | the message of a UTF-8 failure starts "invalid utf-8", of a parse error "invalid url", of a disallowed scheme "unsupported", of a missing scheme "url missing" |
| Validation.MessageShape | cc.rs:172-195 | the characters that tell messages apart: position 0 is `i` for both "invalid" messages and `u` otherwise; position 9 is `t` for a UTF-8 failure and `r` for a parse error; position 1 is `n` for a disallowed scheme and `r` for a missing one; the parser's reason follows the 13-character lead, the scheme the 24-character lead |
| Validation.MessageIdentifies | cc.rs:172-195 | the client can tell from the message which rejection happened and read its detail: two rejections with the same message are equal, unless both are UTF-8 failures |
| Validation.CheckScheme | cc.rs:189-197 | a scheme passes exactly when it is `http` or `https`; no scheme is "missing scheme"; any other is "unsupported" with that scheme |
| Validation.ParseAndCheck | cc.rs:179-197 | text is accepted exactly when the parser accepts it with an allowed scheme, and the result is the parser's re-serialised text |
| Validation.Normalize | cc.rs:171-197 | a UTF-8 failure is reported exactly when the body is not UTF-8, and it carries the decoder's error; an accepted URL is the re-serialised form of the trimmed body and has an allowed scheme |
| Validation.NormalizeEncoded | cc.rs:171-197 | for a UTF-8 body, the outcome is decided by parsing the trimmed text: the parser's error, "missing scheme", "unsupported scheme" naming a scheme outside the allow-list, or the canonical text |
| Validation.NormalizeIgnoresSurroundingWhitespace | cc.rs:172-187 | whitespace before and after a submission does not change its outcome |
| Validation.InvalidUtf8Rejected | cc.rs:171-176 | a body with a stray 0xFF byte is refused as invalid UTF-8 at index 1, error length 1 |
| Validation.TruncatedUtf8Rejected | cc.rs:171-176 | a body ending inside a multi-byte sequence is refused as incomplete |
| LinkStore.EnsureSchema | cc.rs:107-112 | after initialisation `c2u` exists and no existing table changes; nothing happens when `c2u` already exists; otherwise exactly `c2u` (empty) and `u2c` are added; a consistent store stays consistent; initialisation fails exactly when `begin_read` or `list_tables` fails, or, when `c2u` is absent, one of the write steps fails, and a failure names that operation |
| LinkStore.EnsureSchemaIdempotent | cc.rs:107-112 | running initialisation again after it succeeded changes nothing |
| LinkStore.FreshFileInitialised | cc.rs:105-112 | a new file ends up with both tables, empty and consistent |
| LinkStore.Resolve | cc.rs:149-168 | a code is found exactly when no read fails, `c2u` exists and holds the code, and then the answer is its URL; it is missing exactly when `c2u` exists and lacks it |
| LinkStore.StoredLinksResolve | cc.rs:149-168 | in a consistent store, every URL's code resolves to that URL |
| LinkStore.FirstFreeFrom | cc.rs:222-233 | the chosen index holds a candidate that is not in `c2u`, and every earlier candidate is in `c2u` |
| LinkStore.FirstFree | cc.rs:222-233 | the retry loop settles on the first candidate that is not a key of `c2u` |
| LinkStore.DrawFreeCode | cc.rs:222-233 | the loop returns a code absent from `c2u`, the first free candidate, unless one of the probes up to that candidate fails |
| LinkStore.Admit | cc.rs:199-248 | only a creation changes the database; reuse happens exactly for a stored URL and returns its stored code; a new code is fresh and is the first free candidate; exactly the two entries of the new link are added and no other table changes; failure happens exactly when a fault hits an operation the path performs; mutual inverse tables stay mutual inverses |
| LinkStore.LinkKeepsInverse | cc.rs:235-241 | linking a fresh code to a fresh URL keeps the tables mutual inverses |
| LinkStore.AdmitTwice | cc.rs:199-248 | after a fault-free admission, admitting the same URL again, with any candidates, returns the code it got and changes nothing, unless the lookup itself fails |
| LinkStore.CreatedResolves | cc.rs:235-248 | a newly created code resolves to its URL |
| Service.GetCode | cc.rs:149-168 | a redirect (308) to the stored URL exactly when the code is found; 404 exactly when it is missing; the generic 500 database reply exactly when the lookup fails, which needs a fault or a missing `c2u` |
| Service.Candidates | cc.rs:223-233 | one candidate code per draw |
| Service.CandidatesDecode | cc.rs:223-233 | every candidate is a six-character URL-safe code that decodes back to the draw it came from |
| Service.AdmitReply | cc.rs:199-253 | 200 exactly when no fault hits before the lookup and the URL is stored; the generic 500 database reply exactly when a fault hits an operation the path performs (before the lookup, on a probe up to the first free candidate, or on an insert or the commit for a new URL); only a 201 changes the database, and then exactly by the link in both tables; 200 and 201 carry the code `u2c` now holds for the URL; a 201 code is the first candidate not in `c2u` before |
| Service.PutNew | cc.rs:170-253 | 400 exactly for a rejected body, with the rejection's message; for a valid body, 200 exactly when no fault hits before the lookup and the canonical URL is stored, and the generic 500 database reply exactly when a fault hits an operation the path performs; only a 201 changes the database, and then exactly by the link in both tables; 200 and 201 carry the code `u2c` now holds for the canonical URL; a 201 code is six URL-safe characters, the first drawn code not in `c2u` before; consistency is preserved |
| Service.PutIsIdempotent | cc.rs:170-253 | after a fault-free put of a valid body, submitting the same body again, with any draws, returns the same code with status 200 and changes nothing |
| Service.PutThenGet | cc.rs:149-253 | the code returned by a successful put redirects to the canonical URL |

## Left out

- HTTP routing, the fallback route, the optional static index page and JSON serialisation (cc.rs:116-134): transport glue. A reply is modelled as its status plus the body's `ok` and `msg`.
- Percent-decoding of the `{code}` path segment by the router: it is part of the HTTP framework.
- The CLI and the `ls` listing (cc.rs:22-51, cc.rs:75-95): process bootstrap and console output.
- Creating the database file and its directory, and redb's on-disk layout (cc.rs:102-105): foreign library. The file is modelled as a map from table names to tables.
- The `http::Uri` parser and its `to_string`: foreign library, modelled as an uninterpreted function parameter. Nothing is proved about it, idempotence included.
- The random number generator (cc.rs:257): replaced by a given sequence of 4-byte draws.
- The lost-update race between two concurrent writers (cc.rs:225-227): the model is sequential. Each transaction is one atomic transition, and this says nothing about interleaved writers.
- Logging with `println!`: it has no effect on state or replies.
- `Redirect::permanent` panics when a stored URL is not a valid header value: URLs produced by the parser's `to_string` are assumed to be valid header values.
- Several failures at once: a `Fault` names one failing operation. Only the first failure matters in the source, because every failure ends the request.
- LinkStore.Admit: requires that the candidate sequence contains a code not yet in `c2u` whenever the retry loop is reached. The source keeps drawing forever and never returns if no draw is free, so a finite model needs this.
- Service.PutNew: requires the same of its draws when the body is a valid URL that is not yet stored, for the same reason.
- Validation.MessageIdentifies: does not claim that two different UTF-8 failures have different messages. That would need the two rendered numbers split apart again. Utf8.DescribeIndexReadsBack and Utf8.DescribeLengthReadsBack state that each number reads back.
- Validation.Message: the display text of the URI parser's error is the parser's own and is carried through unchanged.

=== FILE: base64url.dfy ===
/**
 * The code format of `gen_key`: random bytes rendered in the URL- and
 * filename-safe base64 alphabet of section 5 of RFC 4648, without the `=`
 * padding (section 3.2 of RFC 4648 allows leaving it out).
 *
 * The decoder is the partner of the encoder: it accepts exactly the strings
 * the encoder produces (it rejects non-zero trailing bits, as the strict
 * no-padding engine does), so each direction is the inverse of the other.
 */
module Base64Url {
  import opened Common

  /** A six-bit value, the index of one alphabet character. */
  type Sextet = s: int | 0 <= s < 64

  /** The characters a code may contain: letters, digits, `-` and `_`. */
  predicate IsUrlSafe(c: char) {
    ('A' <= c <= 'Z') || ('a' <= c <= 'z') || ('0' <= c <= '9') || c == '-' || c == '_'
  }

  /** Every character of `s` is URL-safe. */
  predicate AllUrlSafe(s: string) {
    forall i | 0 <= i < |s| :: IsUrlSafe(s[i])
  }

  /** The alphabet character for value `s`. */
  function SextetChar(s: Sextet): (c: char)
    ensures IsUrlSafe(c)
  {
    if s < 26 then ('A' as int + s) as char
    else if s < 52 then ('a' as int + (s - 26)) as char
    else if s < 62 then ('0' as int + (s - 52)) as char
    else if s == 62 then '-'
    else '_'
  }

  /** The value of an alphabet character, or None for any other character. */
  function CharSextet(c: char): (r: Option<Sextet>)
    ensures r.Some? <==> IsUrlSafe(c)
    ensures r.Some? ==> SextetChar(r.value) == c
  {
    if 'A' <= c <= 'Z' then Some(c as int - 'A' as int)
    else if 'a' <= c <= 'z' then Some(c as int - 'a' as int + 26)
    else if '0' <= c <= '9' then Some(c as int - '0' as int + 52)
    else if c == '-' then Some(62)
    else if c == '_' then Some(63)
    else None
  }

  /** Each character names exactly one value. */
  lemma SextetRoundTrip(s: Sextet)
    ensures CharSextet(SextetChar(s)) == Some(s)
  {
  }

  /** Number of characters the unpadded encoding of `n` bytes takes. */
  function EncodedLength(n: nat): nat {
    (4 * n + 2) / 3
  }

  /** Three bytes as four characters (section 4 of RFC 4648, one quantum). */
  function EncodeGroup(b0: Byte, b1: Byte, b2: Byte): string {
    [SextetChar(b0 / 4), SextetChar((b0 % 4) * 16 + b1 / 16),
     SextetChar((b1 % 16) * 4 + b2 / 64), SextetChar(b2 % 64)]
  }

  /** The final 2 or 3 characters for a 1- or 2-byte remainder; nothing for none. */
  function EncodeTail(b: seq<Byte>): (s: string)
    requires |b| < 3
  {
    if |b| == 0 then []
    else if |b| == 1 then [SextetChar(b[0] / 4), SextetChar((b[0] % 4) * 16)]
    else [SextetChar(b[0] / 4), SextetChar((b[0] % 4) * 16 + b[1] / 16), SextetChar((b[1] % 16) * 4)]
  }

  /** Unpadded base64url of `b`: whole quanta, then the tail. */
  function Encode(b: seq<Byte>): (s: string)
    ensures |s| == EncodedLength(|b|)
    decreases |b|
  {
    if |b| < 3 then EncodeTail(b)
    else EncodeGroup(b[0], b[1], b[2]) + Encode(b[3..])
  }

  /** Bytes of one full quantum: the inverse of EncodeGroup's bit split. */
  function QuantumBytes(v0: Sextet, v1: Sextet, v2: Sextet, v3: Sextet): (b: seq<Byte>)
    ensures |b| == 3
  {
    var b0: Byte := v0 as int * 4 + v1 / 16;
    var b1: Byte := (v1 % 16) as int * 16 + v2 / 4;
    var b2: Byte := (v2 % 4) as int * 64 + v3;
    [b0, b1, b2]
  }

  /** Decodes four characters into three bytes. */
  function DecodeQuantum(c0: char, c1: char, c2: char, c3: char): Option<seq<Byte>> {
    match (CharSextet(c0), CharSextet(c1), CharSextet(c2), CharSextet(c3))
    case (Some(v0), Some(v1), Some(v2), Some(v3)) => Some(QuantumBytes(v0, v1, v2, v3))
    case _ => None
  }

  /** Decodes a two-character tail into one byte; the four unused bits must be zero. */
  function DecodeTail2(c0: char, c1: char): Option<seq<Byte>> {
    match (CharSextet(c0), CharSextet(c1))
    case (Some(v0), Some(v1)) =>
      if v1 % 16 != 0 then None
      else var b0: Byte := v0 as int * 4 + v1 / 16; Some([b0])
    case _ => None
  }

  /** Decodes a three-character tail into two bytes; the two unused bits must be zero. */
  function DecodeTail3(c0: char, c1: char, c2: char): Option<seq<Byte>> {
    match (CharSextet(c0), CharSextet(c1), CharSextet(c2))
    case (Some(v0), Some(v1), Some(v2)) =>
      if v2 % 4 != 0 then None
      else
        var b0: Byte := v0 as int * 4 + v1 / 16;
        var b1: Byte := (v1 % 16) as int * 16 + v2 / 4;
        Some([b0, b1])
    case _ => None
  }

  /** Strict unpadded decoding: rejects a length of 1 mod 4, foreign characters and non-zero unused bits. */
  function Decode(s: string): Option<seq<Byte>>
    decreases |s|
  {
    if |s| == 0 then Some([])
    else if |s| == 1 then None
    else if |s| == 2 then DecodeTail2(s[0], s[1])
    else if |s| == 3 then DecodeTail3(s[0], s[1], s[2])
    else
      match (DecodeQuantum(s[0], s[1], s[2], s[3]), Decode(s[4..]))
      case (Some(q), Some(rest)) => Some(q + rest)
      case _ => None
  }

  /** Splitting three bytes into sextets and joining them again is the identity. */
  lemma QuantumRoundTrip(b0: Byte, b1: Byte, b2: Byte)
    ensures QuantumBytes(b0 / 4, (b0 % 4) * 16 + b1 / 16, (b1 % 16) * 4 + b2 / 64, b2 % 64) == [b0, b1, b2]
  {
  }

  /** Joining four sextets into bytes and splitting them again is the identity. */
  lemma QuantumRoundTripBack(v0: Sextet, v1: Sextet, v2: Sextet, v3: Sextet)
    ensures var b := QuantumBytes(v0, v1, v2, v3);
      EncodeGroup(b[0], b[1], b[2]) == [SextetChar(v0), SextetChar(v1), SextetChar(v2), SextetChar(v3)]
  {
    var b := QuantumBytes(v0, v1, v2, v3);
    assert b[0] / 4 == v0 && b[0] % 4 == v1 / 16;
    assert b[1] / 16 == v1 % 16 && b[1] % 16 == v2 / 4;
    assert b[2] / 64 == v2 % 4 && b[2] % 64 == v3;
  }

  /** A one-byte tail decodes back. */
  lemma Tail1Forward(b0: Byte)
    ensures DecodeTail2(SextetChar(b0 / 4), SextetChar((b0 % 4) * 16)) == Some([b0])
  {
    SextetRoundTrip(b0 / 4);
    SextetRoundTrip((b0 % 4) * 16);
  }

  /** A two-byte tail decodes back. */
  lemma Tail2Forward(b0: Byte, b1: Byte)
    ensures DecodeTail3(SextetChar(b0 / 4), SextetChar((b0 % 4) * 16 + b1 / 16), SextetChar((b1 % 16) * 4))
         == Some([b0, b1])
  {
    SextetRoundTrip(b0 / 4);
    SextetRoundTrip((b0 % 4) * 16 + b1 / 16);
    SextetRoundTrip((b1 % 16) * 4);
  }

  /** A full quantum decodes back. */
  lemma QuantumForward(b0: Byte, b1: Byte, b2: Byte)
    ensures var g := EncodeGroup(b0, b1, b2); DecodeQuantum(g[0], g[1], g[2], g[3]) == Some([b0, b1, b2])
  {
    SextetRoundTrip(b0 / 4);
    SextetRoundTrip((b0 % 4) * 16 + b1 / 16);
    SextetRoundTrip((b1 % 16) * 4 + b2 / 64);
    SextetRoundTrip(b2 % 64);
    QuantumRoundTrip(b0, b1, b2);
  }

  /** A decodable quantum in front of a decodable string decodes piecewise. */
  lemma DecodePrepend(g: string, t: string, q: seq<Byte>, rest: seq<Byte>)
    requires |g| == 4 && DecodeQuantum(g[0], g[1], g[2], g[3]) == Some(q)
    requires Decode(t) == Some(rest)
    ensures Decode(g + t) == Some(q + rest)
  {
    var s := g + t;
    assert s[0] == g[0] && s[1] == g[1] && s[2] == g[2] && s[3] == g[3];
    assert s[4..] == t;
  }

  /** Decoding undoes encoding for a tail shorter than one quantum. */
  lemma DecodeEncodeTail(b: seq<Byte>)
    requires |b| < 3
    ensures Decode(EncodeTail(b)) == Some(b)
  {
    if |b| == 1 {
      Tail1Forward(b[0]);
      assert b == [b[0]];
    } else if |b| == 2 {
      Tail2Forward(b[0], b[1]);
      assert b == [b[0], b[1]];
    }
  }

  /** The encoder only ever emits URL-safe characters. */
  lemma {:induction false} EncodeUrlSafe(b: seq<Byte>)
    ensures AllUrlSafe(Encode(b))
    decreases |b|
  {
    if |b| >= 3 {
      EncodeUrlSafe(b[3..]);
      EncodeStep(b);
      var g, t := EncodeGroup(b[0], b[1], b[2]), Encode(b[3..]);
      forall i | 0 <= i < |g + t|
        ensures IsUrlSafe((g + t)[i])
      {
        if i >= 4 {
          assert (g + t)[i] == t[i - 4];
        }
      }
    }
  }

  /** One unfolding of Encode past a full quantum. */
  lemma EncodeStep(b: seq<Byte>)
    requires |b| >= 3
    ensures Encode(b) == EncodeGroup(b[0], b[1], b[2]) + Encode(b[3..])
  {
  }

  /** Three bytes split off the front of a sequence. */
  lemma SplitQuantum(b: seq<Byte>)
    requires |b| >= 3
    ensures b == [b[0], b[1], b[2]] + b[3..]
  {
  }

  /** Four characters split off the front of a string. */
  lemma SplitGroup(s: string)
    requires |s| >= 4
    ensures s == [s[0], s[1], s[2], s[3]] + s[4..]
  {
  }

  /** Decoding undoes encoding. */
  lemma {:induction false} DecodeEncode(b: seq<Byte>)
    ensures Decode(Encode(b)) == Some(b)
    decreases |b|
  {
    if |b| < 3 {
      DecodeEncodeTail(b);
    } else {
      EncodeStep(b);
      SplitQuantum(b);
      QuantumForward(b[0], b[1], b[2]);
      DecodeEncode(b[3..]);
      DecodePrepend(EncodeGroup(b[0], b[1], b[2]), Encode(b[3..]), [b[0], b[1], b[2]], b[3..]);
    }
  }

  /** A two-character tail re-encodes to itself. */
  lemma Tail2Back(c0: char, c1: char, b: seq<Byte>)
    requires DecodeTail2(c0, c1) == Some(b)
    ensures Encode(b) == [c0, c1]
  {
    var v0, v1 := CharSextet(c0).value, CharSextet(c1).value;
    var b0 := v0 as int * 4 + v1 / 16;
    assert b == [b0];
    assert b0 / 4 == v0 && (b0 % 4) * 16 == v1;
  }

  /** A three-character tail re-encodes to itself. */
  lemma Tail3Back(c0: char, c1: char, c2: char, b: seq<Byte>)
    requires DecodeTail3(c0, c1, c2) == Some(b)
    ensures Encode(b) == [c0, c1, c2]
  {
    var v0, v1, v2 := CharSextet(c0).value, CharSextet(c1).value, CharSextet(c2).value;
    var b0, b1 := v0 as int * 4 + v1 / 16, (v1 % 16) as int * 16 + v2 / 4;
    assert b == [b0, b1];
    assert b0 / 4 == v0 && (b0 % 4) * 16 + b1 / 16 == v1 && (b1 % 16) * 4 == v2;
  }

  /** A full quantum re-encodes to itself. */
  lemma QuantumBack(c0: char, c1: char, c2: char, c3: char, q: seq<Byte>)
    requires DecodeQuantum(c0, c1, c2, c3) == Some(q)
    ensures |q| == 3 && EncodeGroup(q[0], q[1], q[2]) == [c0, c1, c2, c3]
  {
    QuantumRoundTripBack(CharSextet(c0).value, CharSextet(c1).value, CharSextet(c2).value, CharSextet(c3).value);
  }

  /** One unfolding of Decode past a full quantum. */
  lemma DecodeStep(s: string, b: seq<Byte>)
    requires |s| >= 4 && Decode(s) == Some(b)
    ensures DecodeQuantum(s[0], s[1], s[2], s[3]).Some? && Decode(s[4..]).Some?
    ensures b == DecodeQuantum(s[0], s[1], s[2], s[3]).value + Decode(s[4..]).value
  {
  }

  /** Encoding undoes decoding: the decoder accepts only encoder output. */
  lemma {:induction false} EncodeDecode(s: string, b: seq<Byte>)
    requires Decode(s) == Some(b)
    ensures Encode(b) == s
    decreases |s|
  {
    if |s| == 0 {
    } else if |s| == 2 {
      Tail2Back(s[0], s[1], b);
      assert s == [s[0], s[1]];
    } else if |s| == 3 {
      Tail3Back(s[0], s[1], s[2], b);
      assert s == [s[0], s[1], s[2]];
    } else {
      DecodeStep(s, b);
      var q := DecodeQuantum(s[0], s[1], s[2], s[3]).value;
      var rest := Decode(s[4..]).value;
      QuantumBack(s[0], s[1], s[2], s[3], q);
      EncodeDecode(s[4..], rest);
      assert b[3..] == rest && b[..3] == q;
      EncodeStep(b);
      SplitGroup(s);
    }
  }

  /** The encoding is injective: distinct byte strings give distinct codes. */
  lemma EncodeInjective(a: seq<Byte>, b: seq<Byte>)
    requires Encode(a) == Encode(b)
    ensures a == b
  {
    DecodeEncode(a);
    DecodeEncode(b);
  }

  /** The four random bytes `gen_key` draws. */
  type Draw = d: seq<Byte> | |d| == 4 witness [0, 0, 0, 0]

  /** `gen_key`: a code from four drawn bytes, six URL-safe characters. */
  function GenKey(draw: Draw): (code: string)
    ensures |code| == 6
    ensures AllUrlSafe(code)
  {
    EncodeUrlSafe(draw);
    Encode(draw)
  }

  /** A code decodes back to the draw it was made from, so distinct draws give distinct codes. */
  lemma GenKeyDecodes(draw: Draw)
    ensures Decode(GenKey(draw)) == Some(draw)
  {
    DecodeEncode(draw);
  }
}

=== FILE: common.dfy ===
/** Shared vocabulary of the model: optional values, results and bytes. */
module Common {

  /** A value that may be absent, as Rust's `Option`. */
  datatype Option<+T> = None | Some(value: T)

  /** A success value or an error, as Rust's `Result`. */
  datatype Result<+T, +E> = Ok(value: T) | Err(error: E)

  /** One octet, as Rust's `u8`. */
  type Byte = b: int | 0 <= b < 0x100
}

=== FILE: linkstore.dfy ===
/**
 * The bidirectional link store: a redb file holding the tables `c2u`
 * (code to URL) and `u2c` (URL to code), with the three transactions the
 * service runs on it: schema initialisation at startup, the read-only
 * resolve of a code, and the admission of a canonical URL.
 *
 * Each transaction is one atomic transition of a `Db` value: a transaction
 * that is dropped without `commit` (every early return and every database
 * error) yields the database it started from. Database errors are injected
 * through a `Fault`: the one operation, if any, that fails.
 */
module LinkStore {
  import opened Common

  /** One redb table with `&str` keys and values. */
  type Table = map<string, string>

  /** `CODE_TO_URL`: the name of the code-to-URL table. */
  const CodeToUrl: string := "c2u"

  /** `URL_TO_CODE`: the name of the URL-to-code table. */
  const UrlToCode: string := "u2c"

  /** The database file: its tables by name. */
  datatype Db = Db(tables: map<string, Table>)

  /** A table's contents; a table that does not exist yet reads as empty, as a write transaction opens it. */
  function Contents(db: Db, name: string): Table {
    if name in db.tables then db.tables[name] else map[]
  }

  function C2u(db: Db): Table {
    Contents(db, CodeToUrl)
  }

  function U2c(db: Db): Table {
    Contents(db, UrlToCode)
  }

  /** The database operations the service performs, each of which redb may fail. */
  datatype Op =
    | BeginRead
    | ListTables
    | BeginWrite
    | OpenTable(name: string)
    | LookupCode         // `get` on c2u when resolving
    | GetUrl             // `get` on u2c when admitting
    | Probe(attempt: nat) // the attempt-th `get` on c2u in the retry loop, from 0
    | InsertCode
    | InsertUrl
    | Commit

  /** The operation that fails, if any. */
  type Fault = Option<Op>

  predicate Fails(fault: Fault, op: Op) {
    fault == Some(op)
  }

  /** The two tables are mutual inverses: every link is recorded in both directions and nowhere else. */
  ghost predicate Inverse(c2u: Table, u2c: Table) {
    && (forall c | c in c2u :: c2u[c] in u2c && u2c[c2u[c]] == c)
    && (forall u | u in u2c :: u2c[u] in c2u && c2u[u2c[u]] == u)
  }

  ghost predicate Consistent(db: Db) {
    Inverse(C2u(db), U2c(db))
  }

  // ---------------------------------------------------------------------
  // Schema initialisation
  // ---------------------------------------------------------------------

  /**
   * The schema block of `serve`: when no table named `c2u` exists, open
   * (and so create) both tables in one write transaction and commit it.
   * An error aborts startup: Err names the failing operation.
   */
  function EnsureSchema(db: Db, fault: Fault): (r: Result<Db, Op>)
    ensures r.Err? ==> Fails(fault, r.error) && r.error in {BeginRead, ListTables, BeginWrite, OpenTable(CodeToUrl), OpenTable(UrlToCode), Commit}
    ensures r.Err? <==>
      || fault in {Some(BeginRead), Some(ListTables)}
      || (CodeToUrl !in db.tables &&
          fault in {Some(BeginWrite), Some(OpenTable(CodeToUrl)), Some(OpenTable(UrlToCode)), Some(Commit)})
    ensures r.Ok? ==> CodeToUrl in r.value.tables
    ensures r.Ok? ==> forall name | name in db.tables :: name in r.value.tables && r.value.tables[name] == db.tables[name]
    ensures r.Ok? && CodeToUrl in db.tables ==> r.value == db
    ensures r.Ok? && CodeToUrl !in db.tables ==>
      && r.value.tables.Keys == db.tables.Keys + {CodeToUrl, UrlToCode}
      && C2u(r.value) == map[]
    ensures r.Ok? && Consistent(db) ==> Consistent(r.value)
  {
    if Fails(fault, BeginRead) then Err(BeginRead)
    else if Fails(fault, ListTables) then Err(ListTables)
    else if CodeToUrl in db.tables then Ok(db)
    else if Fails(fault, BeginWrite) then Err(BeginWrite)
    else if Fails(fault, OpenTable(CodeToUrl)) then Err(OpenTable(CodeToUrl))
    else if Fails(fault, OpenTable(UrlToCode)) then Err(OpenTable(UrlToCode))
    else if Fails(fault, Commit) then Err(Commit)
    else Ok(Db(db.tables[CodeToUrl := map[]][UrlToCode := U2c(db)]))
  }

  /** Running the schema block again after it succeeded changes nothing. */
  lemma EnsureSchemaIdempotent(db: Db, db': Db, fault: Fault)
    requires EnsureSchema(db, None) == Ok(db')
    requires !Fails(fault, BeginRead) && !Fails(fault, ListTables)
    ensures EnsureSchema(db', fault) == Ok(db')
  {
  }

  /** A new database file comes out of initialisation with both tables, empty. */
  lemma FreshFileInitialised(db': Db)
    requires EnsureSchema(Db(map[]), None) == Ok(db')
    ensures db'.tables == map[CodeToUrl := map[], UrlToCode := map[]]
    ensures Consistent(db')
  {
  }

  // ---------------------------------------------------------------------
  // Resolve
  // ---------------------------------------------------------------------

  /** What a lookup of a code finds. */
  datatype Lookup = Found(url: string) | Missing | LookupFailed

  /**
   * The read transaction of `get_code`: look the code up in `c2u`.
   * Opening `c2u` for reading fails when the table does not exist.
   * Resolve returns no database: it is read-only by construction.
   */
  function Resolve(db: Db, code: string, fault: Fault): (r: Lookup)
    ensures r.Found? <==> fault !in {Some(BeginRead), Some(OpenTable(CodeToUrl)), Some(LookupCode)} && CodeToUrl in db.tables && code in C2u(db)
    ensures r.Found? ==> r.url == C2u(db)[code]
    ensures r.Missing? <==> fault !in {Some(BeginRead), Some(OpenTable(CodeToUrl)), Some(LookupCode)} && CodeToUrl in db.tables && code !in C2u(db)
  {
    if Fails(fault, BeginRead) || Fails(fault, OpenTable(CodeToUrl)) || CodeToUrl !in db.tables then LookupFailed
    else if Fails(fault, LookupCode) then LookupFailed
    else if code in db.tables[CodeToUrl] then Found(db.tables[CodeToUrl][code])
    else Missing
  }

  /** Every link in a consistent store resolves, from its code, to its URL. */
  lemma StoredLinksResolve(db: Db, url: string)
    requires Consistent(db) && url in U2c(db)
    ensures Resolve(db, U2c(db)[url], None) == Found(url)
  {
  }

  // ---------------------------------------------------------------------
  // Code drawing
  // ---------------------------------------------------------------------

  /** Some candidate code is not taken yet: the random source eventually yields a free code. */
  predicate HasFree(c2u: Table, candidates: seq<string>) {
    exists i | 0 <= i < |candidates| :: candidates[i] !in c2u
  }

  /** Index of the first candidate at or after `i` that misses in `c2u`. */
  function FirstFreeFrom(c2u: Table, candidates: seq<string>, i: nat): (k: nat)
    requires i <= |candidates|
    requires exists j | i <= j < |candidates| :: candidates[j] !in c2u
    ensures i <= k < |candidates| && candidates[k] !in c2u
    ensures forall j | i <= j < k :: candidates[j] in c2u
    decreases |candidates| - i
  {
    if candidates[i] !in c2u then i else FirstFreeFrom(c2u, candidates, i + 1)
  }

  /** Index of the candidate the retry loop settles on: the first one that is free. */
  function FirstFree(c2u: Table, candidates: seq<string>): (k: nat)
    requires HasFree(c2u, candidates)
    ensures k < |candidates| && candidates[k] !in c2u
    ensures forall j | 0 <= j < k :: candidates[j] in c2u
  {
    FirstFreeFrom(c2u, candidates, 0)
  }

  /** Whether one of the first `k + 1` probes of the retry loop fails. */
  predicate ProbeFailsBy(fault: Fault, k: nat) {
    fault.Some? && fault.value.Probe? && fault.value.attempt <= k
  }

  /**
   * The retry loop of `put_new`: draw candidates in turn until one misses
   * in `c2u`, or until a lookup fails (None). It agrees with FirstFree.
   */
  method DrawFreeCode(c2u: Table, candidates: seq<string>, fault: Fault) returns (r: Option<string>)
    requires HasFree(c2u, candidates)
    ensures r.Some? ==> r.value !in c2u
    ensures r.None? <==> ProbeFailsBy(fault, FirstFree(c2u, candidates))
    ensures r.Some? ==> r.value == candidates[FirstFree(c2u, candidates)]
  {
    ghost var k := FirstFree(c2u, candidates);
    var i := 0;
    while true
      invariant i <= k
      invariant forall j | 0 <= j < i :: candidates[j] in c2u && !Fails(fault, Probe(j))
      decreases k - i
    {
      if Fails(fault, Probe(i)) {
        return None;
      }
      if candidates[i] !in c2u {
        return Some(candidates[i]);
      }
      i := i + 1;
    }
  }

  // ---------------------------------------------------------------------
  // Admission
  // ---------------------------------------------------------------------

  /** Outcome of the admission transaction. */
  datatype Admission = Reused(code: string) | Created(code: string) | AdmitFailed

  /** The faults that strike before the `u2c` lookup completes. */
  predicate FailsBeforeLookup(fault: Fault) {
    Fails(fault, BeginWrite) || Fails(fault, OpenTable(UrlToCode)) || Fails(fault, OpenTable(CodeToUrl))
    || Fails(fault, GetUrl)
  }

  /** The faults that strike after a free code was found. */
  predicate FailsOnWrite(fault: Fault) {
    Fails(fault, InsertCode) || Fails(fault, InsertUrl) || Fails(fault, Commit)
  }

  /**
   * Whether the admission reaches the retry loop: the lookup succeeds and
   * `u2c` has no code for the URL. Only then are candidates drawn.
   */
  predicate DrawsNeeded(db: Db, url: string, fault: Fault) {
    !FailsBeforeLookup(fault) && url !in U2c(db)
  }

  /** The database after committing the link `code` <-> `url`. */
  function Link(db: Db, code: string, url: string): Db {
    Db(db.tables[CodeToUrl := C2u(db)[code := url]][UrlToCode := U2c(db)[url := code]])
  }

  /**
   * The write transaction of `put_new` for a canonical URL: reuse the code
   * `u2c` holds for it, or take the first free candidate and record the
   * link in both tables, then commit. Any failure drops the transaction.
   */
  function Admit(db: Db, url: string, candidates: seq<string>, fault: Fault): (r: (Admission, Db))
    requires DrawsNeeded(db, url, fault) ==> HasFree(C2u(db), candidates)
    ensures !r.0.Created? ==> r.1 == db
    ensures r.0.AdmitFailed? <==>
      || FailsBeforeLookup(fault)
      || (url !in U2c(db) && (ProbeFailsBy(fault, FirstFree(C2u(db), candidates)) || FailsOnWrite(fault)))
    ensures r.0.Reused? <==> !FailsBeforeLookup(fault) && url in U2c(db)
    ensures r.0.Reused? ==> r.0.code == U2c(db)[url]
    ensures r.0.Created? ==> DrawsNeeded(db, url, fault)
    ensures r.0.Created? ==>
      && r.0.code !in C2u(db)
      && r.0.code == candidates[FirstFree(C2u(db), candidates)]
    ensures r.0.Created? ==>
      && C2u(r.1) == C2u(db)[r.0.code := url]
      && U2c(r.1) == U2c(db)[url := r.0.code]
      && r.1.tables.Keys == db.tables.Keys + {CodeToUrl, UrlToCode}
      && forall name | name in db.tables && name != CodeToUrl && name != UrlToCode :: r.1.tables[name] == db.tables[name]
    ensures Consistent(db) ==> Consistent(r.1)
  {
    if FailsBeforeLookup(fault) then (AdmitFailed, db)
    else if url in U2c(db) then (Reused(U2c(db)[url]), db)
    else
      var k := FirstFree(C2u(db), candidates);
      if ProbeFailsBy(fault, k) || FailsOnWrite(fault) then (AdmitFailed, db)
      else
        var code := candidates[k];
        LinkKeepsInverse(C2u(db), U2c(db), code, url);
        (Created(code), Link(db, code, url))
  }

  /** Adding a link between a fresh code and a fresh URL keeps the tables mutual inverses. */
  lemma LinkKeepsInverse(c2u: Table, u2c: Table, code: string, url: string)
    requires code !in c2u && url !in u2c
    ensures Inverse(c2u, u2c) ==> Inverse(c2u[code := url], u2c[url := code])
  {
    if Inverse(c2u, u2c) {
      var c2u', u2c' := c2u[code := url], u2c[url := code];
      forall c | c in c2u'
        ensures c2u'[c] in u2c' && u2c'[c2u'[c]] == c
      {
        if c != code {
          assert c2u[c] in u2c;
        }
      }
      forall u | u in u2c'
        ensures u2c'[u] in c2u' && c2u'[u2c'[u]] == u
      {
        if u != url {
          assert u2c[u] in c2u;
        }
      }
    }
  }

  /** Submitting the same URL again returns the code it got and leaves the store as it is. */
  lemma AdmitTwice(db: Db, url: string, candidates: seq<string>, candidates': seq<string>, fault: Fault)
    requires DrawsNeeded(db, url, None) ==> HasFree(C2u(db), candidates)
    requires !FailsBeforeLookup(fault)
    ensures var (first, db1) := Admit(db, url, candidates, None);
      Admit(db1, url, candidates', fault) == (Reused(first.code), db1)
  {
  }

  /** A link just created resolves to the URL it was created for. */
  lemma CreatedResolves(db: Db, url: string, candidates: seq<string>, fault: Fault)
    requires DrawsNeeded(db, url, fault) ==> HasFree(C2u(db), candidates)
    requires Admit(db, url, candidates, fault).0.Created?
    ensures var (a, db1) := Admit(db, url, candidates, fault); Resolve(db1, a.code, None) == Found(url)
  {
  }
}

=== FILE: service.dfy ===
/**
 * The two request handlers, `get_code` (GET /{code}) and `put_new`
 * (POST /put), as functions from the database, the request and the
 * environment (URI parser, random draws, injected fault) to the HTTP reply
 * and the database afterwards. Routing and JSON serialisation are not
 * modelled: a reply is its status, and for JSON replies the `ok` and `msg`
 * fields of the body.
 */
module Service {
  import opened Common
  import Base64Url
  import Validation
  import LinkStore

  const OkStatus: nat := 200
  const CreatedStatus: nat := 201
  const PermanentRedirectStatus: nat := 308
  const BadRequestStatus: nat := 400
  const NotFoundStatus: nat := 404
  const InternalErrorStatus: nat := 500

  /** The generic message of every database failure (the `nope!` macro). */
  const DbProblem: string := "problem with database"

  /** An HTTP reply: a JSON `Response` body, a permanent redirect, or a bare status. */
  datatype Reply =
    | Json(status: nat, ok: bool, msg: string)
    | Redirect(status: nat, location: string)
    | Bare(status: nat)
  {
    function Status(): nat {
      match this
      case Json(s, _, _) => s
      case Redirect(s, _) => s
      case Bare(s) => s
    }
  }

  /** The reply of the `nope!` macro. */
  const StoreFailure: Reply := Json(InternalErrorStatus, false, DbProblem)

  /** `get_code`: redirect to the stored URL, 404 for an unknown code, 500 on a database error. */
  function GetCode(db: LinkStore.Db, code: string, fault: LinkStore.Fault): (reply: Reply)
    ensures reply.Redirect? <==> LinkStore.Resolve(db, code, fault).Found?
    ensures reply.Redirect? ==>
      && reply.status == PermanentRedirectStatus
      && code in LinkStore.C2u(db) && reply.location == LinkStore.C2u(db)[code]
    ensures reply == Bare(NotFoundStatus) <==> LinkStore.Resolve(db, code, fault).Missing?
    ensures reply.Status() == InternalErrorStatus ==> fault.Some? || LinkStore.CodeToUrl !in db.tables
    ensures LinkStore.Resolve(db, code, fault).LookupFailed? <==> reply == StoreFailure
  {
    match LinkStore.Resolve(db, code, fault)
    case Found(url) => Redirect(PermanentRedirectStatus, url)
    case Missing => Bare(NotFoundStatus)
    case LookupFailed => StoreFailure
  }

  /** The candidate codes `gen_key` produces from a sequence of random draws, one per draw. */
  function Candidates(draws: seq<Base64Url.Draw>): (codes: seq<string>)
    ensures |codes| == |draws|
  {
    seq(|draws|, i requires 0 <= i < |draws| => Base64Url.GenKey(draws[i]))
  }

  /** Each candidate is a six-character URL-safe code that decodes back to its draw. */
  lemma CandidatesDecode(draws: seq<Base64Url.Draw>)
    ensures forall i | 0 <= i < |draws| ::
      && |Candidates(draws)[i]| == 6 && Base64Url.AllUrlSafe(Candidates(draws)[i])
      && Base64Url.Decode(Candidates(draws)[i]) == Some(draws[i])
  {
    forall i | 0 <= i < |draws|
      ensures Base64Url.Decode(Candidates(draws)[i]) == Some(draws[i])
    {
      Base64Url.GenKeyDecodes(draws[i]);
    }
  }

  /**
   * The transactional half of `put_new` for an already normalised URL: the
   * admission outcome as a reply. Reuse answers 200 with the stored code, a
   * new link 201 with the fresh code, any database error 500.
   */
  function AdmitReply(db: LinkStore.Db, url: string, candidates: seq<string>, fault: LinkStore.Fault)
    : (r: (Reply, LinkStore.Db))
    requires LinkStore.DrawsNeeded(db, url, fault) ==> LinkStore.HasFree(LinkStore.C2u(db), candidates)
    ensures r.0.Status() in {OkStatus, CreatedStatus, InternalErrorStatus}
    ensures r.0.Status() != CreatedStatus ==> r.1 == db
    ensures r.0.Status() == InternalErrorStatus ==> r.0 == StoreFailure && fault.Some?
    ensures r.0.Status() == OkStatus <==> !LinkStore.FailsBeforeLookup(fault) && url in LinkStore.U2c(db)
    ensures r.0.Status() in {OkStatus, CreatedStatus} ==>
      && r.0.Json? && r.0.ok
      && url in LinkStore.U2c(r.1) && LinkStore.U2c(r.1)[url] == r.0.msg
    ensures r.0.Status() == InternalErrorStatus <==>
      || LinkStore.FailsBeforeLookup(fault)
      || (url !in LinkStore.U2c(db) &&
          (LinkStore.ProbeFailsBy(fault, LinkStore.FirstFree(LinkStore.C2u(db), candidates)) || LinkStore.FailsOnWrite(fault)))
    ensures r.0.Status() == CreatedStatus ==> LinkStore.DrawsNeeded(db, url, fault)
    ensures r.0.Status() == CreatedStatus ==>
      && r.0.msg !in LinkStore.C2u(db)
      && r.0.msg == candidates[LinkStore.FirstFree(LinkStore.C2u(db), candidates)]
    ensures r.0.Status() == CreatedStatus ==>
      && LinkStore.C2u(r.1) == LinkStore.C2u(db)[r.0.msg := url]
      && LinkStore.U2c(r.1) == LinkStore.U2c(db)[url := r.0.msg]
    ensures r.0.Status() == CreatedStatus ==> r.1 == LinkStore.Link(db, r.0.msg, url)
    ensures LinkStore.Consistent(db) ==> LinkStore.Consistent(r.1)
  {
    var (admission, db') := LinkStore.Admit(db, url, candidates, fault);
    match admission
    case Reused(code) => (Json(OkStatus, true, code), db')
    case Created(code) => (Json(CreatedStatus, true, code), db')
    case AdmitFailed => (StoreFailure, db')
  }

  /**
   * `put_new`: validate and normalise the body, then admit the canonical
   * URL. Validation failures answer 400 before any transaction begins; a
   * known URL answers 200 with its code; a new one answers 201 with a new
   * code; a database error answers 500.
   */
  function PutNew(db: LinkStore.Db, raw: seq<Byte>, parse: Validation.UriParser,
                  draws: seq<Base64Url.Draw>, fault: LinkStore.Fault): (r: (Reply, LinkStore.Db))
    requires DrawsSuffice(db, raw, parse, draws, fault)
    ensures r.0.Status() != CreatedStatus ==> r.1 == db
    ensures r.0.Status() == BadRequestStatus <==> Validation.Normalize(raw, parse).Err?
    ensures Validation.Normalize(raw, parse).Err? ==>
      r.0 == Json(BadRequestStatus, false, Validation.Message(Validation.Normalize(raw, parse).error))
    ensures r.0.Status() == InternalErrorStatus ==> r.0 == StoreFailure && fault.Some?
    ensures r.0.Status() in {OkStatus, CreatedStatus} ==>
      && r.0.Json? && r.0.ok
      && var url := Validation.Normalize(raw, parse).value;
      && url in LinkStore.U2c(r.1) && LinkStore.U2c(r.1)[url] == r.0.msg
    ensures r.0.Status() == CreatedStatus ==>
      && |r.0.msg| == 6
      && Base64Url.AllUrlSafe(r.0.msg)
      && r.0.msg !in LinkStore.C2u(db)
    ensures r.0.Status() in {OkStatus, CreatedStatus, BadRequestStatus, InternalErrorStatus}
    ensures r.0.Status() == OkStatus <==>
      && Validation.Normalize(raw, parse).Ok?
      && !LinkStore.FailsBeforeLookup(fault) && Validation.Normalize(raw, parse).value in LinkStore.U2c(db)
    ensures r.0.Status() == InternalErrorStatus <==>
      && Validation.Normalize(raw, parse).Ok?
      && var url := Validation.Normalize(raw, parse).value;
      || LinkStore.FailsBeforeLookup(fault)
      || (url !in LinkStore.U2c(db) &&
          (LinkStore.ProbeFailsBy(fault, LinkStore.FirstFree(LinkStore.C2u(db), Candidates(draws))) || LinkStore.FailsOnWrite(fault)))
    ensures r.0.Status() == CreatedStatus ==>
      && Validation.Normalize(raw, parse).Ok?
      && LinkStore.DrawsNeeded(db, Validation.Normalize(raw, parse).value, fault)
    ensures r.0.Status() == CreatedStatus ==>
      var url := Validation.Normalize(raw, parse).value;
      && r.0.msg == Candidates(draws)[LinkStore.FirstFree(LinkStore.C2u(db), Candidates(draws))]
      && LinkStore.C2u(r.1) == LinkStore.C2u(db)[r.0.msg := url]
      && LinkStore.U2c(r.1) == LinkStore.U2c(db)[url := r.0.msg]
      && r.1 == LinkStore.Link(db, r.0.msg, url)
    ensures LinkStore.Consistent(db) ==> LinkStore.Consistent(r.1)
  {
    match Validation.Normalize(raw, parse)
    case Err(rejection) => (Json(BadRequestStatus, false, Validation.Message(rejection)), db)
    case Ok(url) =>
      var r := AdmitReply(db, url, Candidates(draws), fault);
      // A new code is the `gen_key` of the first free draw, so it has GenKey's shape.
      assert r.0.Status() == CreatedStatus ==>
        r.0.msg == Base64Url.GenKey(draws[LinkStore.FirstFree(LinkStore.C2u(db), Candidates(draws))]);
      r
  }

  /**
   * The draws contain a code missing from `c2u` whenever the request gets
   * as far as the retry loop: the body is a valid URL not yet stored and no
   * fault strikes before the lookup.
   */
  predicate DrawsSuffice(db: LinkStore.Db, raw: seq<Byte>, parse: Validation.UriParser,
                         draws: seq<Base64Url.Draw>, fault: LinkStore.Fault) {
    && Validation.Normalize(raw, parse).Ok?
    && LinkStore.DrawsNeeded(db, Validation.Normalize(raw, parse).value, fault)
    ==> LinkStore.HasFree(LinkStore.C2u(db), Candidates(draws))
  }

  /** Submitting the same body twice: the second reply carries the same code, with status 200, and changes nothing. */
  lemma PutIsIdempotent(db: LinkStore.Db, raw: seq<Byte>, parse: Validation.UriParser,
                        draws: seq<Base64Url.Draw>, draws': seq<Base64Url.Draw>)
    requires DrawsSuffice(db, raw, parse, draws, None)
    requires Validation.Normalize(raw, parse).Ok?
    ensures var (first, db1) := PutNew(db, raw, parse, draws, None);
      PutNew(db1, raw, parse, draws', None) == (Json(OkStatus, true, first.msg), db1)
  {
  }

  /** A code handed out by a successful put redirects to the canonical URL it was handed out for. */
  lemma PutThenGet(db: LinkStore.Db, raw: seq<Byte>, parse: Validation.UriParser, draws: seq<Base64Url.Draw>)
    requires DrawsSuffice(db, raw, parse, draws, None)
    requires LinkStore.Consistent(db)
    requires Validation.Normalize(raw, parse).Ok?
    ensures var (reply, db1) := PutNew(db, raw, parse, draws, None);
      GetCode(db1, reply.msg, None) == Redirect(PermanentRedirectStatus, Validation.Normalize(raw, parse).value)
  {
    var (reply, db1) := PutNew(db, raw, parse, draws, None);
    var url := Validation.Normalize(raw, parse).value;
    LinkStore.StoredLinksResolve(db1, url);
  }
}

=== FILE: text.dfy ===
/** Character-level helpers the request handler relies on: `str::trim` and decimal rendering of indices. */
module Text {

  /** Unicode's White_Space property, the test behind Rust's `char::is_whitespace`. */
  predicate IsWhitespace(c: char) {
    ('\t' <= c <= '\r') || c == ' ' || c == '\U{0085}' || c == '\U{00A0}' || c == '\U{1680}'
    || ('\U{2000}' <= c <= '\U{200A}') || c == '\U{2028}' || c == '\U{2029}' || c == '\U{202F}'
    || c == '\U{205F}' || c == '\U{3000}'
  }

  predicate AllWhitespace(s: string) {
    forall i | 0 <= i < |s| :: IsWhitespace(s[i])
  }

  /** Number of whitespace characters at the start of `s`. */
  function LeadingBlanks(s: string): (n: nat)
    ensures n <= |s|
    ensures forall i | 0 <= i < n :: IsWhitespace(s[i])
    ensures n < |s| ==> !IsWhitespace(s[n])
  {
    if |s| > 0 && IsWhitespace(s[0]) then 1 + LeadingBlanks(s[1..]) else 0
  }

  /** Number of whitespace characters at the end of `s`. */
  function TrailingBlanks(s: string): (n: nat)
    ensures n <= |s|
    ensures forall i | |s| - n <= i < |s| :: IsWhitespace(s[i])
    ensures n < |s| ==> !IsWhitespace(s[|s| - n - 1])
  {
    if |s| > 0 && IsWhitespace(s[|s| - 1]) then 1 + TrailingBlanks(s[..|s| - 1]) else 0
  }

  /** `str::trim`: `s` without its leading and trailing whitespace. */
  function Trim(s: string): (r: string)
    ensures LeadingBlanks(s) + |r| <= |s|
    ensures r == s[LeadingBlanks(s)..LeadingBlanks(s) + |r|]
    ensures forall i | LeadingBlanks(s) + |r| <= i < |s| :: IsWhitespace(s[i])
    ensures |r| > 0 ==> !IsWhitespace(r[0]) && !IsWhitespace(r[|r| - 1])
  {
    var lead := LeadingBlanks(s);
    if lead == |s| then []
    else
      var end := |s| - TrailingBlanks(s);
      assert lead < end;
      s[lead..end]
  }

  /** A blank prefix in front of a non-blank start is exactly what LeadingBlanks counts. */
  lemma {:induction false} LeadingBlanksOf(lead: string, rest: string)
    requires AllWhitespace(lead)
    requires |rest| > 0 ==> !IsWhitespace(rest[0])
    ensures LeadingBlanks(lead + rest) == |lead|
    decreases |lead|
  {
    if |lead| > 0 {
      assert (lead + rest)[1..] == lead[1..] + rest;
      LeadingBlanksOf(lead[1..], rest);
    } else {
      assert lead + rest == rest;
    }
  }

  /** A blank suffix behind a non-blank end is exactly what TrailingBlanks counts. */
  lemma {:induction false} TrailingBlanksOf(rest: string, trail: string)
    requires AllWhitespace(trail)
    requires |rest| > 0 ==> !IsWhitespace(rest[|rest| - 1])
    ensures TrailingBlanks(rest + trail) == |trail|
    decreases |trail|
  {
    if |trail| > 0 {
      var n := |trail| - 1;
      assert (rest + trail)[..|rest + trail| - 1] == rest + trail[..n];
      TrailingBlanksOf(rest, trail[..n]);
    } else {
      assert rest + trail == rest;
    }
  }

  /** The converse of Trim's contract: whitespace around a core with non-blank ends is exactly what Trim removes. */
  lemma TrimSurrounded(lead: string, core: string, trail: string)
    requires AllWhitespace(lead) && AllWhitespace(trail)
    requires |core| > 0 ==> !IsWhitespace(core[0]) && !IsWhitespace(core[|core| - 1])
    ensures Trim(lead + core + trail) == core
  {
    var s := lead + core + trail;
    if |core| == 0 {
      assert AllWhitespace(s);
      LeadingBlanksOf(s, []);
      assert s + [] == s;
    } else {
      assert s == lead + (core + trail);
      LeadingBlanksOf(lead, core + trail);
      assert s == (lead + core) + trail;
      TrailingBlanksOf(lead + core, trail);
      assert s[|lead|..|s| - |trail|] == core;
    }
  }

  /** Trimming twice is trimming once. */
  lemma TrimIdempotent(s: string)
    ensures Trim(Trim(s)) == Trim(s)
  {
    var r := Trim(s);
    assert r == [] + r + [];
    TrimSurrounded([], r, []);
  }

  /** The ASCII digit for `d`. */
  function Digit(d: nat): (c: char)
    requires d < 10
    ensures '0' <= c <= '9'
  {
    ('0' as int + d) as char
  }

  /** Decimal rendering of a natural number, as `{}` formats a `usize`. */
  function Decimal(n: nat): (s: string)
    ensures |s| >= 1
    ensures forall i | 0 <= i < |s| :: '0' <= s[i] <= '9'
    ensures |s| > 1 ==> s[0] != '0'
  {
    if n < 10 then [Digit(n)] else Decimal(n / 10) + [Digit(n % 10)]
  }

  /** The value of a string of decimal digits; the partner of Decimal. */
  function DecimalValue(s: string): nat
    requires forall i | 0 <= i < |s| :: '0' <= s[i] <= '9'
  {
    if |s| == 0 then 0 else DecimalValue(s[..|s| - 1]) * 10 + (s[|s| - 1] as int - '0' as int)
  }

  /** Reading back a rendered number gives the number. */
  lemma {:induction false} DecimalRoundTrip(n: nat)
    ensures DecimalValue(Decimal(n)) == n
  {
    if n >= 10 {
      var s := Decimal(n);
      assert s[..|s| - 1] == Decimal(n / 10);
      DecimalRoundTrip(n / 10);
    }
  }
}

=== FILE: utf8.dfy ===
/**
 * `std::str::from_utf8`, the first check the put handler applies to the
 * request body: UTF-8 as defined by RFC 3629 (no overlong forms, no
 * surrogates, nothing above U+10FFFF), with the error report of the Rust
 * standard library (`valid_up_to`, `error_len`) and its display text.
 */
module Utf8 {
  import opened Common
  import Text

  /** Where validation stopped, and how many bytes form the offending sequence (None: the input ended inside one). */
  datatype Utf8Error = Utf8Error(validUpTo: nat, errorLen: Option<nat>)

  /** What the decoder finds at one position: a scalar value spanning `width` bytes, or an error. */
  datatype Step = Scalar(c: char, width: nat) | Malformed(errorLen: Option<nat>)

  predicate IsContinuation(b: Byte) {
    0x80 <= b < 0xC0
  }

  /** Sequence length announced by a non-ASCII lead byte; 0 for bytes that cannot lead. */
  function Width(first: Byte): nat {
    if 0xC2 <= first <= 0xDF then 2
    else if 0xE0 <= first <= 0xEF then 3
    else if 0xF0 <= first <= 0xF4 then 4
    else 0
  }

  /** Second bytes allowed after a three-byte lead: rules out overlong forms and surrogates. */
  predicate SecondOfThree(first: Byte, second: Byte) {
    || (first == 0xE0 && 0xA0 <= second <= 0xBF)
    || (0xE1 <= first <= 0xEC && 0x80 <= second <= 0xBF)
    || (first == 0xED && 0x80 <= second <= 0x9F)
    || (0xEE <= first <= 0xEF && 0x80 <= second <= 0xBF)
  }

  /** Second bytes allowed after a four-byte lead: rules out overlong forms and values above U+10FFFF. */
  predicate SecondOfFour(first: Byte, second: Byte) {
    || (first == 0xF0 && 0x90 <= second <= 0xBF)
    || (0xF1 <= first <= 0xF3 && 0x80 <= second <= 0xBF)
    || (first == 0xF4 && 0x80 <= second <= 0x8F)
  }

  /** The RFC 3629 encoding of one scalar value. */
  function EncodeChar(c: char): (b: seq<Byte>)
    ensures 1 <= |b| <= 4
  {
    var cp := c as int;
    if cp < 0x80 then [cp]
    else if cp < 0x800 then [0xC0 + cp / 64, 0x80 + cp % 64]
    else if cp < 0x10000 then [0xE0 + cp / 4096, 0x80 + (cp / 64) % 64, 0x80 + cp % 64]
    else [0xF0 + cp / 262144, 0x80 + (cp / 4096) % 64, 0x80 + (cp / 64) % 64, 0x80 + cp % 64]
  }

  /** The RFC 3629 encoding of a string. */
  function Encode(s: string): seq<Byte> {
    if |s| == 0 then [] else EncodeChar(s[0]) + Encode(s[1..])
  }

  /** The scalar of a two-byte sequence. */
  function Scalar2(b0: Byte, b1: Byte): char
    requires Width(b0) == 2 && IsContinuation(b1)
  {
    ((b0 - 0xC0) * 64 + (b1 - 0x80)) as char
  }

  /** The scalar of a three-byte sequence. */
  function Scalar3(b0: Byte, b1: Byte, b2: Byte): char
    requires SecondOfThree(b0, b1) && IsContinuation(b2)
  {
    (((b0 - 0xE0) * 64 + (b1 - 0x80)) * 64 + (b2 - 0x80)) as char
  }

  /** The scalar of a four-byte sequence. */
  function Scalar4(b0: Byte, b1: Byte, b2: Byte, b3: Byte): char
    requires SecondOfFour(b0, b1) && IsContinuation(b2) && IsContinuation(b3)
  {
    ((((b0 - 0xF0) * 64 + (b1 - 0x80)) * 64 + (b2 - 0x80)) * 64 + (b3 - 0x80)) as char
  }

  /** Encoding the scalar of a two-byte sequence gives back those bytes. */
  lemma Scalar2Encodes(b0: Byte, b1: Byte)
    requires Width(b0) == 2 && IsContinuation(b1)
    ensures EncodeChar(Scalar2(b0, b1)) == [b0, b1]
  {
    var cp := (b0 - 0xC0) * 64 + (b1 - 0x80);
    assert cp / 64 == b0 - 0xC0 && cp % 64 == b1 - 0x80;
  }

  /** Encoding the scalar of a three-byte sequence gives back those bytes. */
  lemma Scalar3Encodes(b0: Byte, b1: Byte, b2: Byte)
    requires SecondOfThree(b0, b1) && IsContinuation(b2)
    ensures EncodeChar(Scalar3(b0, b1, b2)) == [b0, b1, b2]
  {
    var hi := (b0 - 0xE0) * 64 + (b1 - 0x80);
    var cp := hi * 64 + (b2 - 0x80);
    assert cp / 64 == hi && cp % 64 == b2 - 0x80;
    assert hi / 64 == b0 - 0xE0 && hi % 64 == b1 - 0x80;
    assert cp / 4096 == hi / 64;
  }

  /** Encoding the scalar of a four-byte sequence gives back those bytes. */
  lemma Scalar4Encodes(b0: Byte, b1: Byte, b2: Byte, b3: Byte)
    requires SecondOfFour(b0, b1) && IsContinuation(b2) && IsContinuation(b3)
    ensures EncodeChar(Scalar4(b0, b1, b2, b3)) == [b0, b1, b2, b3]
  {
    var top := (b0 - 0xF0) * 64 + (b1 - 0x80);
    var mid := top * 64 + (b2 - 0x80);
    var cp := mid * 64 + (b3 - 0x80);
    assert cp / 64 == mid && cp % 64 == b3 - 0x80;
    assert mid / 64 == top && mid % 64 == b2 - 0x80;
    assert top / 64 == b0 - 0xF0 && top % 64 == b1 - 0x80;
    assert cp / 4096 == mid / 64 && cp / 262144 == top / 64;
  }

  /** The validator on a two-byte lead. */
  function Step2(b: seq<Byte>): Step
    requires |b| > 0 && Width(b[0]) == 2
  {
    if |b| < 2 then Malformed(None)
    else if !IsContinuation(b[1]) then Malformed(Some(1))
    else Scalar(Scalar2(b[0], b[1]), 2)
  }

  /** The validator on a three-byte lead. */
  function Step3(b: seq<Byte>): Step
    requires |b| > 0 && Width(b[0]) == 3
  {
    if |b| < 2 then Malformed(None)
    else if !SecondOfThree(b[0], b[1]) then Malformed(Some(1))
    else if |b| < 3 then Malformed(None)
    else if !IsContinuation(b[2]) then Malformed(Some(2))
    else Scalar(Scalar3(b[0], b[1], b[2]), 3)
  }

  /** The validator on a four-byte lead. */
  function Step4(b: seq<Byte>): Step
    requires |b| > 0 && Width(b[0]) == 4
  {
    if |b| < 2 then Malformed(None)
    else if !SecondOfFour(b[0], b[1]) then Malformed(Some(1))
    else if |b| < 3 then Malformed(None)
    else if !IsContinuation(b[2]) then Malformed(Some(2))
    else if |b| < 4 then Malformed(None)
    else if !IsContinuation(b[3]) then Malformed(Some(3))
    else Scalar(Scalar4(b[0], b[1], b[2], b[3]), 4)
  }

  /**
   * One step of the standard library's validator at the start of `b`: on a
   * bad byte, `errorLen` counts the lead byte and the continuation bytes
   * accepted before it; running out of input mid-sequence gives None.
   */
  function StepAt(b: seq<Byte>): (r: Step)
    requires |b| > 0
    ensures r.Scalar? ==> 1 <= r.width <= |b| && r.width <= 4
    ensures r.Malformed? && r.errorLen.Some? ==> 1 <= r.errorLen.value <= |b| && r.errorLen.value <= 3
    ensures r == Malformed(None) ==> |b| < Width(b[0])
  {
    if b[0] < 0x80 then Scalar(b[0] as char, 1)
    else if Width(b[0]) == 2 then Step2(b)
    else if Width(b[0]) == 3 then Step3(b)
    else if Width(b[0]) == 4 then Step4(b)
    else Malformed(Some(1))
  }

  /**
   * `std::str::from_utf8`: validates and decodes `b` front to back; an error
   * reports the offset of the first bad sequence.
   */
  function FromUtf8(b: seq<Byte>): (r: Result<string, Utf8Error>)
    ensures r.Err? ==> r.error.validUpTo < |b|
    decreases |b|
  {
    if |b| == 0 then Ok([])
    else match StepAt(b)
      case Malformed(len) => Err(Utf8Error(0, len))
      case Scalar(c, w) =>
        match FromUtf8(b[w..])
        case Ok(s) => Ok([c] + s)
        case Err(e) => Err(Utf8Error(w + e.validUpTo, e.errorLen))
  }

  /** An error after an accepted scalar is reported past that scalar. */
  lemma FromUtf8ScalarErr(b: seq<Byte>, c: char, w: nat, e: Utf8Error)
    requires |b| > 0 && StepAt(b) == Scalar(c, w) && FromUtf8(b[w..]) == Err(e)
    ensures FromUtf8(b) == Err(Utf8Error(w + e.validUpTo, e.errorLen))
  {
  }

  /** The validator fails at the reported position, with the reported error length. */
  lemma {:induction false} ErrorStep(b: seq<Byte>, e: Utf8Error)
    requires FromUtf8(b) == Err(e)
    ensures e.validUpTo < |b| && StepAt(b[e.validUpTo..]) == Malformed(e.errorLen)
    decreases |b|
  {
    match StepAt(b)
    case Malformed(len) =>
      assert b[0..] == b;
    case Scalar(c, w) =>
      var e' := FromUtf8(b[w..]).error;
      FromUtf8ScalarErr(b, c, w, e');
      ErrorStep(b[w..], e');
      assert b[w..][e'.validUpTo..] == b[w + e'.validUpTo..];
  }

  /**
   * Where `from_utf8` reports an error: the validator fails at `valid_up_to`
   * (the bytes before it are valid, see ValidUpToIsValid), with the reported
   * `error_len`; an invalid sequence lies inside the input, and an
   * incomplete one runs to its end.
   */
  lemma ErrorAtBadStep(b: seq<Byte>, e: Utf8Error)
    requires FromUtf8(b) == Err(e)
    ensures e.validUpTo < |b| && StepAt(b[e.validUpTo..]) == Malformed(e.errorLen)
    ensures e.errorLen.None? ==> |b| - e.validUpTo <= 3
    ensures e.errorLen.Some? ==> e.validUpTo + e.errorLen.value <= |b|
  {
    ErrorStep(b, e);
    var rest := b[e.validUpTo..];
    assert |rest| == |b| - e.validUpTo;
    assert Width(rest[0]) <= 4;
  }

  /** An incomplete step is a proper prefix of some scalar's encoding: the input ended inside a sequence. */
  lemma IncompleteIsPrefix(b: seq<Byte>)
    requires |b| > 0 && StepAt(b) == Malformed(None)
    ensures exists c: char :: |b| < |EncodeChar(c)| && EncodeChar(c)[..|b|] == b
  {
    var b0 := b[0];
    if Width(b0) == 2 {
      var c := Scalar2(b0, 0x80);
      Scalar2Encodes(b0, 0x80);
      assert EncodeChar(c)[..|b|] == b;
    } else if Width(b0) == 3 {
      // The smallest second byte the lead allows.
      var b1: Byte := if |b| >= 2 then b[1] else if b0 == 0xE0 then 0xA0 else 0x80;
      var c := Scalar3(b0, b1, 0x80);
      Scalar3Encodes(b0, b1, 0x80);
      assert EncodeChar(c)[..|b|] == b;
    } else {
      var b1: Byte := if |b| >= 2 then b[1] else if b0 == 0xF0 then 0x90 else 0x80;
      var b2: Byte := if |b| >= 3 then b[2] else 0x80;
      var c := Scalar4(b0, b1, b2, 0x80);
      Scalar4Encodes(b0, b1, b2, 0x80);
      assert EncodeChar(c)[..|b|] == b;
    }
  }

  /** A proper prefix of a scalar's encoding is an incomplete step. */
  lemma PrefixIsIncomplete(b: seq<Byte>, c: char)
    requires 0 < |b| < |EncodeChar(c)| && EncodeChar(c)[..|b|] == b
    ensures StepAt(b) == Malformed(None)
  {
    var e := EncodeChar(c);
    var cp := c as int;
    assert b[0] == e[0];
    if cp < 0x800 {
      Encoded2(c);
    } else if cp < 0x10000 {
      Encoded3(c);
      if |b| >= 2 { assert b[1] == e[1]; }
    } else {
      Encoded4(c);
      if |b| >= 2 { assert b[1] == e[1]; }
      if |b| >= 3 { assert b[2] == e[2]; }
    }
  }

  /** `error_len` is None exactly when the bytes are the start of some scalar's encoding cut short. */
  lemma StepIncomplete(b: seq<Byte>)
    requires |b| > 0
    ensures StepAt(b) == Malformed(None) <==> exists c: char :: |b| < |EncodeChar(c)| && EncodeChar(c)[..|b|] == b
  {
    if StepAt(b) == Malformed(None) {
      IncompleteIsPrefix(b);
    }
    if c: char :| |b| < |EncodeChar(c)| && EncodeChar(c)[..|b|] == b {
      PrefixIsIncomplete(b, c);
    }
  }

  /** The part of a `Utf8Error`'s display text before the index. */
  function Lead(e: Utf8Error): (lead: string)
    ensures |lead| >= 42 && lead[|lead| - 1] == ' '
    ensures e.errorLen.None? <==> lead[..10] == "incomplete"
  {
    match e.errorLen
    case Some(n) =>
      var lead := "invalid utf-8 sequence of " + Text.Decimal(n) + " bytes from index ";
      assert lead[2] == 'v';  // "invalid" and "incomplete" first differ at position 2
      lead
    case None =>
      var lead := "incomplete utf-8 byte sequence from index ";
      assert lead[..10] == "incomplete";
      lead
  }

  /**
   * The display text of a `Utf8Error`, as the put handler's message embeds
   * it: an "incomplete" report exactly when the input ends inside a
   * sequence, and in every case the index after a space at the end.
   */
  function Describe(e: Utf8Error): (msg: string)
    ensures |msg| > 42
    ensures e.errorLen.None? <==> msg[..10] == "incomplete"
    ensures var index := Text.Decimal(e.validUpTo);
      && |index| < |msg| && msg[|msg| - |index|..] == index
      && msg[|msg| - |index| - 1] == ' '
  {
    var lead := Lead(e);
    assert (lead + Text.Decimal(e.validUpTo))[..10] == lead[..10];
    lead + Text.Decimal(e.validUpTo)
  }

  /** The index at the end of a description reads back as the reported position. */
  lemma DescribeIndexReadsBack(e: Utf8Error)
    ensures var msg, index := Describe(e), Text.Decimal(e.validUpTo);
      Text.DecimalValue(msg[|msg| - |index|..]) == e.validUpTo
  {
    Text.DecimalRoundTrip(e.validUpTo);
  }

  /** In the description of an invalid sequence, the number after the 26-character lead reads back as its length. */
  lemma DescribeLengthReadsBack(e: Utf8Error)
    requires e.errorLen.Some?
    ensures var len := Text.Decimal(e.errorLen.value);
      |Describe(e)| >= 26 + |len| && Text.DecimalValue(Describe(e)[26..26 + |len|]) == e.errorLen.value
  {
    var len := Text.Decimal(e.errorLen.value);
    var head, tail := "invalid utf-8 sequence of ", " bytes from index " + Text.Decimal(e.validUpTo);
    assert Describe(e) == head + len + tail;
    assert (head + len + tail)[26..26 + |len|] == len;
    Text.DecimalRoundTrip(e.errorLen.value);
  }

  /** Two-byte encodings pass the validator's checks and decode back. */
  lemma Encoded2(c: char)
    requires 0x80 <= c as int < 0x800
    ensures var e := EncodeChar(c); Width(e[0]) == 2 && IsContinuation(e[1]) && Scalar2(e[0], e[1]) == c
  {
  }

  /** Three-byte encodings pass the validator's checks and decode back. */
  lemma Encoded3(c: char)
    requires 0x800 <= c as int < 0x10000
    ensures var e := EncodeChar(c);
      Width(e[0]) == 3 && SecondOfThree(e[0], e[1]) && IsContinuation(e[2]) && Scalar3(e[0], e[1], e[2]) == c
  {
    var cp := c as int;
    assert cp == (cp / 4096) * 4096 + ((cp / 64) % 64) * 64 + cp % 64;
  }

  /** Four-byte encodings pass the validator's checks and decode back. */
  lemma Encoded4(c: char)
    requires 0x10000 <= c as int
    ensures var e := EncodeChar(c);
      && Width(e[0]) == 4 && SecondOfFour(e[0], e[1]) && IsContinuation(e[2]) && IsContinuation(e[3])
      && Scalar4(e[0], e[1], e[2], e[3]) == c
  {
    var cp := c as int;
    var t := cp / 64;
    var m := t / 64;
    assert cp / 4096 == m;
    assert cp / 262144 == m / 64;
    assert m == (m / 64) * 64 + m % 64;
    assert t == m * 64 + t % 64;
    assert cp == t * 64 + cp % 64;
  }

  /** The validator reads an encoded scalar back as that scalar. */
  lemma StepOnEncoded(b: seq<Byte>, c: char)
    requires |EncodeChar(c)| <= |b| && b[..|EncodeChar(c)|] == EncodeChar(c)
    ensures StepAt(b) == Scalar(c, |EncodeChar(c)|)
  {
    var e := EncodeChar(c);
    var cp := c as int;
    assert b[0] == e[0];
    if cp < 0x80 {
    } else if cp < 0x800 {
      assert b[1] == e[1];
      Encoded2(c);
    } else if cp < 0x10000 {
      assert b[1] == e[1] && b[2] == e[2];
      Encoded3(c);
    } else {
      assert b[1] == e[1] && b[2] == e[2] && b[3] == e[3];
      Encoded4(c);
    }
  }

  /** A scalar the validator accepts spans exactly its own encoding. */
  lemma StepSound(b: seq<Byte>)
    requires |b| > 0 && StepAt(b).Scalar?
    ensures EncodeChar(StepAt(b).c) == b[..StepAt(b).width]
  {
    if b[0] < 0x80 {
      assert b[..1] == [b[0]];
    } else if Width(b[0]) == 2 {
      Scalar2Encodes(b[0], b[1]);
      assert b[..2] == [b[0], b[1]];
    } else if Width(b[0]) == 3 {
      Scalar3Encodes(b[0], b[1], b[2]);
      assert b[..3] == [b[0], b[1], b[2]];
    } else {
      Scalar4Encodes(b[0], b[1], b[2], b[3]);
      assert b[..4] == [b[0], b[1], b[2], b[3]];
    }
  }

  /** One unfolding of FromUtf8 past a scalar, when the rest decodes. */
  lemma FromUtf8Scalar(b: seq<Byte>, c: char, w: nat, rest: string)
    requires |b| > 0 && StepAt(b) == Scalar(c, w) && FromUtf8(b[w..]) == Ok(rest)
    ensures FromUtf8(b) == Ok([c] + rest)
  {
  }

  /** Whatever the validator accepts re-encodes to the input. */
  lemma {:induction false} DecodeSound(b: seq<Byte>)
    ensures FromUtf8(b).Ok? ==> Encode(FromUtf8(b).value) == b
    decreases |b|
  {
    if |b| > 0 && StepAt(b).Scalar? {
      var c, w := StepAt(b).c, StepAt(b).width;
      DecodeSound(b[w..]);
      if FromUtf8(b[w..]).Ok? {
        var rest := FromUtf8(b[w..]).value;
        FromUtf8Scalar(b, c, w, rest);
        StepSound(b);
        EncodeCons(c, rest);
        SplitAt(b, w);
      }
    }
  }

  /** Cutting a sequence in two and gluing the halves gives it back. */
  lemma SplitAt(b: seq<Byte>, w: nat)
    requires w <= |b|
    ensures b[..w] + b[w..] == b
  {
  }

  /** Encoding distributes over a leading character. */
  lemma EncodeCons(c: char, rest: string)
    ensures Encode([c] + rest) == EncodeChar(c) + Encode(rest)
  {
    assert ([c] + rest)[0] == c && ([c] + rest)[1..] == rest;
  }

  /** Every string's encoding is valid and decodes to the string. */
  lemma {:induction false} DecodeEncode(s: string)
    ensures FromUtf8(Encode(s)) == Ok(s)
  {
    if |s| > 0 {
      var e, t := EncodeChar(s[0]), Encode(s[1..]);
      var b := e + t;
      assert b[..|e|] == e && b[|e|..] == t;
      StepOnEncoded(b, s[0]);
      DecodeEncode(s[1..]);
      FromUtf8Scalar(b, s[0], |e|, s[1..]);
      assert [s[0]] + s[1..] == s;
    }
  }

  /** Valid UTF-8 is exactly the set of encodings of strings. */
  lemma ValidIffEncoding(b: seq<Byte>, s: string)
    ensures FromUtf8(b) == Ok(s) <==> Encode(s) == b
  {
    if Encode(s) == b {
      DecodeEncode(s);
    } else if FromUtf8(b) == Ok(s) {
      DecodeSound(b);
    }
  }

  /** `valid_up_to` is honest: the bytes before it are valid UTF-8. */
  lemma {:induction false} ValidUpToIsValid(b: seq<Byte>, e: Utf8Error)
    requires FromUtf8(b) == Err(e)
    ensures FromUtf8(b[..e.validUpTo]).Ok?
    decreases |b|
  {
    match StepAt(b)
    case Malformed(_) =>
      assert b[..e.validUpTo] == [];
    case Scalar(c, w) =>
      var e' := FromUtf8(b[w..]).error;
      ValidUpToIsValid(b[w..], e');
      var p := b[..e.validUpTo];
      assert p[w..] == b[w..][..e'.validUpTo];
      StepSound(b);
      assert p[..w] == b[..w];
      StepOnEncoded(p, c);
      FromUtf8Scalar(p, c, w, FromUtf8(p[w..]).value);
  }
}

=== FILE: validation.dfy ===
/**
 * Validation and normalisation of a submitted URL, the part of the put
 * handler that runs before any database access: UTF-8 decoding, trimming,
 * URI parsing with re-serialisation, and the scheme allow-list.
 *
 * The `http::Uri` parser is not part of this model: it is a parameter of
 * type UriParser, of which only success or failure, the scheme it reports
 * and the re-serialised text are used.
 */
module Validation {
  import opened Common
  import Text
  import Utf8

  /** `ALLOWED_SCHEMES`: the only schemes a stored URL may have. */
  const AllowedSchemes: seq<string> := ["http", "https"]

  /** A parsed URI: the scheme `scheme_str` reports, if any, and the URI's `to_string` form. */
  datatype ParsedUri = ParsedUri(scheme: Option<string>, text: string)

  /** `str::parse::<Uri>`: a parsed URI, or the parser's error text. */
  type UriParser = string -> Result<ParsedUri, string>

  /** Why a submission was refused with 400 Bad Request. */
  datatype Rejection =
    | InvalidUtf8(cause: Utf8.Utf8Error)
    | InvalidUrl(reason: string)
    | UnsupportedScheme(scheme: string)
    | MissingScheme

  /** The `msg` of the 400 reply for each rejection. */
  function Message(r: Rejection): (msg: string)
    ensures |msg| > 0
  {
    match r
    case InvalidUtf8(e) => "invalid utf-8 in url: " + Utf8.Describe(e)
    case InvalidUrl(reason) => "invalid url: " + reason
    case UnsupportedScheme(s) => "unsupported url scheme: " + s
    case MissingScheme => "url missing scheme"
  }

  /**
   * The characters that tell the rejections apart: position 0 separates
   * "invalid ..." from "u...", position 1 "unsupported" from "url missing",
   * position 9 "invalid utf-8" from "invalid url"; the detail follows the lead.
   */
  lemma MessageShape(r: Rejection)
    ensures var m := Message(r);
      && |m| >= 13
      && (r.InvalidUtf8? ==> m[0] == 'i' && m[9] == 't')
      && (r.InvalidUrl? ==> m[0] == 'i' && m[9] == 'r' && m[13..] == r.reason)
      && (r.UnsupportedScheme? ==> |m| >= 24 && m[0] == 'u' && m[1] == 'n' && m[24..] == r.scheme)
      && (r.MissingScheme? ==> m[0] == 'u' && m[1] == 'r')
  {
    var m := Message(r);
    match r
    case InvalidUtf8(e) =>
      var lead := "invalid utf-8 in url: ";
      assert m == lead + Utf8.Describe(e);
      assert m[0] == lead[0] && m[9] == lead[9];
    case InvalidUrl(reason) =>
      var lead := "invalid url: ";
      assert m == lead + reason;
      assert m[0] == lead[0] && m[9] == lead[9];
    case UnsupportedScheme(scheme) =>
      var lead := "unsupported url scheme: ";
      assert m == lead + scheme;
      assert m[0] == lead[0] && m[1] == lead[1];
    case MissingScheme =>
  }

  /** Each message opens with the words that name its rejection. */
  lemma MessageLeads(r: Rejection)
    ensures var m := Message(r);
      && |m| >= 13
      && (r.InvalidUtf8? ==> m[..13] == "invalid utf-8")
      && (r.InvalidUrl? ==> m[..11] == "invalid url")
      && (r.UnsupportedScheme? ==> m[..11] == "unsupported")
      && (r.MissingScheme? ==> m[..11] == "url missing")
  {
    var m := Message(r);
    match r
    case InvalidUtf8(e) =>
      var lead := "invalid utf-8 in url: ";
      assert m == lead + Utf8.Describe(e);
      assert m[..13] == lead[..13];
    case InvalidUrl(reason) =>
      var lead := "invalid url: ";
      assert m == lead + reason;
      assert m[..11] == lead[..11];
    case UnsupportedScheme(scheme) =>
      var lead := "unsupported url scheme: ";
      assert m == lead + scheme;
      assert m[..11] == lead[..11];
    case MissingScheme =>
      assert m[..11] == "url missing";
  }

  /**
   * The message tells the client which rejection happened and carries its
   * detail: two rejections with the same message are the same rejection,
   * unless both are UTF-8 failures.
   */
  lemma MessageIdentifies(r1: Rejection, r2: Rejection)
    requires Message(r1) == Message(r2)
    requires !r1.InvalidUtf8? || !r2.InvalidUtf8?
    ensures r1 == r2
  {
    MessageShape(r1);
    MessageShape(r2);
  }

  /** The allow-list test on the parsed scheme: None when the scheme is accepted. */
  function CheckScheme(scheme: Option<string>): (r: Option<Rejection>)
    ensures r.None? <==> scheme == Some("http") || scheme == Some("https")
    ensures scheme.None? ==> r == Some(MissingScheme)
    ensures scheme.Some? && r.Some? ==> r == Some(UnsupportedScheme(scheme.value))
  {
    match scheme
    case None => Some(MissingScheme)
    case Some(s) => if s in AllowedSchemes then None else Some(UnsupportedScheme(s))
  }

  /** Parse, re-serialise and check the scheme of already-trimmed text. */
  function ParseAndCheck(trimmed: string, parse: UriParser): (r: Result<string, Rejection>)
    ensures r.Ok? <==> parse(trimmed).Ok? && CheckScheme(parse(trimmed).value.scheme).None?
    ensures r.Ok? ==> r.value == parse(trimmed).value.text
  {
    match parse(trimmed)
    case Err(reason) => Err(InvalidUrl(reason))
    case Ok(uri) =>
      match CheckScheme(uri.scheme)
      case Some(rejection) => Err(rejection)
      case None => Ok(uri.text)
  }

  /**
   * From request body to canonical URL: decode as UTF-8, trim, parse,
   * re-serialise, then check the scheme. The canonical text is what the
   * store compares and keeps.
   */
  function Normalize(raw: seq<Byte>, parse: UriParser): (r: Result<string, Rejection>)
    ensures (r.Err? && r.error.InvalidUtf8?) <==> Utf8.FromUtf8(raw).Err?
    ensures Utf8.FromUtf8(raw).Err? ==> r == Err(InvalidUtf8(Utf8.FromUtf8(raw).error))
    ensures r.Ok? ==>
      && Utf8.FromUtf8(raw).Ok?
      && var uri := parse(Text.Trim(Utf8.FromUtf8(raw).value));
      && uri.Ok? && uri.value.text == r.value
      && (uri.value.scheme == Some("http") || uri.value.scheme == Some("https"))
  {
    match Utf8.FromUtf8(raw)
    case Err(e) => Err(InvalidUtf8(e))
    case Ok(text) => ParseAndCheck(Text.Trim(text), parse)
  }

  /** For a body that is the UTF-8 encoding of `text`, the outcome is decided by parsing the trimmed text. */
  lemma NormalizeEncoded(text: string, parse: UriParser)
    ensures var r := Normalize(Utf8.Encode(text), parse);
      match parse(Text.Trim(text))
      case Err(reason) => r == Err(InvalidUrl(reason))
      case Ok(uri) =>
        && (r.Ok? <==> uri.scheme == Some("http") || uri.scheme == Some("https"))
        && (r.Ok? ==> r.value == uri.text)
        && (uri.scheme.None? ==> r == Err(MissingScheme))
        && (uri.scheme.Some? && uri.scheme.value !in AllowedSchemes ==> r == Err(UnsupportedScheme(uri.scheme.value)))
  {
    Utf8.DecodeEncode(text);
  }

  /** Whitespace around a submission never changes its outcome. */
  lemma NormalizeIgnoresSurroundingWhitespace(lead: string, core: string, trail: string, parse: UriParser)
    requires Text.AllWhitespace(lead) && Text.AllWhitespace(trail)
    requires |core| > 0 ==> !Text.IsWhitespace(core[0]) && !Text.IsWhitespace(core[|core| - 1])
    ensures Normalize(Utf8.Encode(lead + core + trail), parse) == Normalize(Utf8.Encode(core), parse)
  {
    var whole := lead + core + trail;
    Utf8.DecodeEncode(whole);
    Utf8.DecodeEncode(core);
    Text.TrimSurrounded(lead, core, trail);
    Text.TrimSurrounded([], core, []);
    assert [] + core + [] == core;
    assert Normalize(Utf8.Encode(whole), parse) == ParseAndCheck(core, parse);
  }

  /** A body that is not UTF-8 is refused, with the position and length of the first bad sequence. */
  lemma InvalidUtf8Rejected(parse: UriParser)
    ensures Normalize([0x68, 0xFF], parse) == Err(InvalidUtf8(Utf8.Utf8Error(1, Some(1))))
  {
    var b: seq<Byte> := [0x68, 0xFF];
    assert Utf8.StepAt(b) == Utf8.Scalar('h', 1);
    assert b[1..] == [0xFF];
    assert Utf8.StepAt(b[1..]) == Utf8.Malformed(Some(1));
    assert Utf8.FromUtf8(b[1..]) == Err(Utf8.Utf8Error(0, Some(1)));
    assert Utf8.FromUtf8(b) == Err(Utf8.Utf8Error(1, Some(1)));
  }

  /** A truncated multi-byte sequence is refused as incomplete. */
  lemma TruncatedUtf8Rejected(parse: UriParser)
    ensures Normalize([0xE2, 0x82], parse) == Err(InvalidUtf8(Utf8.Utf8Error(0, None)))
  {
    var b: seq<Byte> := [0xE2, 0x82];
    assert Utf8.StepAt(b) == Utf8.Malformed(None);
    assert Utf8.FromUtf8(b) == Err(Utf8.Utf8Error(0, None));
  }
}
